=== FILE: README.md ===
# Grade sheet export: two-row header and fail marking

This project models the two spreadsheet post-processing steps at the end of
the grade-merging pipeline in `app.py`:

- `formatar_cabecalho_duplo` puts a two-row header (subjects, then term
  labels) above the header row that `to_excel` wrote for the merged table;
  that row stays, as row 3. Every non-key column name
  `<subject>_<term>` (for example `Ciências_B1`) is split at its `_`, columns
  are grouped by subject in order of first appearance, and each group gets a
  merged subject cell in row 1, starting at column B. Row 2 gets one term
  label per column, the term with every `B` replaced by `ºBi`. Two blank rows
  go on top of the sheet, with A1 set to the empty string and A2 to `ALUNO`.
- `colorir_notas` paints every numeric cell below 5 red, from column B on and
  from row 3 down. The pass mark is fixed at 5 (app.py line 67).

The model is a chain of pure functions over immutable data:

| module | models |
|---|---|
| `Results` | `Result`: a value, or the model's record of where a Python exception stops the function |
| `Strings` | `str.split` with a one-character separator, `str.join`, and `str.replace` with a one-character pattern |
| `Columns` | the column loop of lines 18-21 and its tuple-unpack failure; the term label of line 48 |
| `Grouping` | the `materias` dictionary of lines 17-24 (a left fold of dictionary inserts), proved equal to a declarative group-by |
| `Layout` | where the merged subject ranges go (lines 34-51) |
| `Sheet` | the worksheet as a grid of `Num`, `Text` and `Empty` cells, with `ws.cell`, `insert_rows` and the picture `to_excel` writes |
| `Header` | the whole of `formatar_cabecalho_duplo` as a `Result`: either the first bad column name or the new sheet and its merged ranges |
| `Marking` | the nested loops of `colorir_notas` as a method that returns the cells and a red-font mask |
| `Alignment` | when the new header actually sits above the right data columns |

Points that the proofs bring out:

- The label for term `B1` is `ºBi1`, not the `1ºBi` that the comment at
  app.py line 46 announces (`Columns.TermLabelOfNumberedTerm`). The code is
  followed.
- `to_excel` puts table column `j` in spreadsheet column `j + 1`. The header
  instead puts a subject's columns side by side from column B onwards. Each
  label therefore sits above its own column's data exactly when two things
  hold: the non-key columns are table columns 1, 2, ..., N, and each
  subject's columns are already adjacent in the table
  (`Alignment.AlignmentIff`). The first holds when `ALUNO` is the table's
  first column and no other column named `ALUNO` sits among the non-key
  ones (`Alignment.KeyColumnFirst`). A second `ALUNO` column with a
  non-key column after it, as in `ALUNO, A_1, ALUNO, B_1`, breaks the
  alignment (`Alignment.LaterKeyMisaligns`).
  Otherwise labels and data silently disagree.
- The comment at line 65 says grades start at row 3. After the two inserted
  rows, row 3 holds the column names that `to_excel` wrote, and grades start
  at row 4. Row 3 contains only text, so it is never marked
  (`Marking.ExportedMarks`).

## Model

| member | source | states |
|---|---|---|
| Strings.Split | app.py:21 | `split("_")` yields one more part than there are separators, no part contains the separator, and joining the parts with it gives the name back |
| Strings.SplitJoin | app.py:21 | splitting a join of separator-free parts gives the same parts back, so split and join are inverse |
| Strings.Replace | app.py:48 | each occurrence of the pattern grows the text by the replacement's extra length, and a text without the pattern is returned unchanged |
| Strings.ReplaceConcat | app.py:48 | replacing in a concatenation equals concatenating the replaced pieces, which with the one-character cases fixes the result completely |
| Columns.ParseColumn | app.py:21 | the two-target unpack succeeds exactly for names with one `_`; the entry's subject and term contain no `_` and rebuild the name around it; otherwise the error carries the name and its part count |
| Columns.ParseColumns | app.py:18-21 | `ParseColumns`, the whole column loop, succeeds exactly when every non-`ALUNO` name has one `_`; on success it lists every non-`ALUNO` column in table order, each cut at its `_`; on failure it identifies the first bad column and its part count |
| Columns.ParsePrefix | app.py:18-21 | the loop succeeds exactly when every non-`ALUNO` name has one `_`; on success it lists every non-`ALUNO` column, in table order, each cut at its `_`; on failure it reports the first bad name |
| Columns.TermLabel | app.py:48 | `replace("B", "ºBi")` on the term grows it by two characters per `B` and leaves a term without `B` unchanged |
| Columns.TermLabelOfNumberedTerm | app.py:46-48 | the label of term `B<digits>` is `ºBi<digits>`, which differs from the `<digits>ºBi` the comment promises |
| Grouping.Find | app.py:22 | the dictionary lookup returns the first group with that key, or -1 exactly when no group has it |
| Grouping.Subjects | app.py:17-24 | the reference key list has no repeats and holds exactly the subjects that occur |
| Grouping.Members | app.py:24 | the reference member list holds exactly the entries of that subject, in table order, and is non-empty when the subject occurs |
| Grouping.InsertNewSubject | app.py:22-24 | one step of `Insert` for a subject not yet in the dictionary turns the group-by of the earlier columns into the group-by of all of them: the new subject gets a new last group holding just that column |
| Grouping.InsertKnownSubject | app.py:22-24 | one step of `Insert` for a subject already in the dictionary turns the group-by of the earlier columns into the group-by of all of them, by appending the column to that subject's group |
| Grouping.GroupAllIsGroupBy | app.py:17-24 | `GroupAll`, the insertion loop, builds exactly the group-by: keys in first-appearance order, each with its subject's columns in table order |
| Grouping.WidthGroupAll | app.py:22-24 | the groups together hold as many columns as were inserted |
| Grouping.GroupAllSize | app.py:22-24 | every group is non-empty and the group sizes add up to the number of columns |
| Grouping.GroupAllContents | app.py:17-24 | keys are distinct, each group keeps table order, holds only columns of its subject, and every column is in some group |
| Grouping.GroupAllUnique | app.py:22-24 | no column appears in two places of the dictionary |
| Grouping.GroupAllFirstAppearance | app.py:17-24 | each group's first column comes before the first column of every later group |
| Grouping.ColumnsGrouped | app.py:18-24 | every non-`ALUNO` column name is in exactly one group, keyed by the text before its `_`; `ALUNO` is in none |
| Layout.Merges | app.py:34-51 | there is one merged range per group, in row 1, starting where the previous groups end, as wide as the group |
| Layout.StartStep | app.py:51 | `Start`, the value of `col_excel` before group `k`, grows by exactly that group's width (`col_excel += n_cols`) |
| Layout.StartMonotone | app.py:51 | a group's columns end before any later group starts |
| Layout.MergesAdjacent | app.py:34-51 | the first range starts at column B, no range is empty, and each next range starts one past the previous end |
| Layout.MergesDisjoint | app.py:43-51 | no two merged ranges share a column |
| Layout.MergesCover | app.py:34-51 | a column lies in some merged range exactly when it is between column B and column 1 + the number of grouped columns |
| Sheet.SetCell | app.py:49 | writing a cell sets that cell and leaves every other cell as it was |
| Sheet.InsertTopRow | app.py:27-28 | inserting a row on top leaves row 1 blank and moves every row down by one |
| Sheet.MaxColumn | app.py:64 | the last used column is at least the length of every row and equals the length of some row |
| Sheet.Frame | app.py:6 | `to_excel` puts the column names in row 1 and table cell (i, j) in row i + 2, column j + 1 |
| Header.WriteLabels | app.py:47-49 | the inner loop sets row 2, columns `col_excel` to `col_excel + n - 1`, to the group's labels, and nothing else |
| Header.WriteGroup | app.py:38-49 | one group pass writes its subject at row 1 of its start column and its labels in row 2, and nothing else |
| Header.WriteGroupsWritesHeader | app.py:36-51 | `WriteGroups`, the outer loop, puts each subject at its group's start, each label at start + index, and keeps all other cells |
| Header.BlankHeader | app.py:27-32 | the two inserted rows move the data down by two, A1 is the empty string, A2 is `ALUNO`, and the rest of rows 1-2 is empty |
| Header.FormatDoubleHeader | app.py:12-53 | the function fails, touching nothing, exactly when some non-`ALUNO` name does not split into two parts, and then identifies the first such column |
| Header.HeaderCells | app.py:27-51 | on success the sheet is the table moved down two rows, under a header with subjects at the group starts and labels beneath, empty elsewhere, with the merged ranges of the layout |
| Marking.ColorGrades | app.py:64-68 | a cell is painted red exactly when it is at column 2 or later, row 3 or later, and holds a number below 5; no cell value changes |
| Marking.ExportedMarks | app.py:64-68 | on the exported sheet nothing in the three header rows is marked, and table cell (i, j) lands at row i + 4, column j + 1, marked exactly when j >= 1 and it is a failing grade |
| Alignment.KeyColumnFirst | app.py:18-20 | when `ALUNO` is the first column and no other column has that name, the other columns are table columns 1, 2, ... in order |
| Alignment.AlignedIfContiguous | app.py:36-51 | when the non-key columns are table columns 1, 2, ..., N and each subject's columns are adjacent, every label sits above its own column's data |
| Alignment.AlignedKeyLeads | app.py:36-51 | if every label sits above its own data, the non-key columns are exactly table columns 1, 2, ... |
| Alignment.AlignedContiguous | app.py:36-51 | if every label sits above its own data, no subject's columns are interrupted by another subject's |
| Alignment.LaterKeyMisaligns | app.py:18-51 | an `ALUNO` column anywhere but first, with a non-key column after it, leaves some label off its own data, even when every subject is contiguous |
| Alignment.AlignmentIff | app.py:36-51 | the labels line up with the data exactly when the non-key columns are table columns 1, 2, ..., N and each subject's columns are adjacent |

## Left out

- Files: the temporary file, `to_excel`, `load_workbook`, `wb.save` and `wb.active` (app.py lines 5-6, 13-14, 53, 60-61, 70). The sheet is an in-memory grid, and `Sheet.Frame` stands in for the picture `to_excel` writes.
- The download button (app.py lines 76-83): it is user-interface transport.
- The font itself (red, bold, app.py line 62): the model keeps a boolean mask.
- openpyxl's merged-cell internals (app.py lines 43-44): a merge is a record of row, first and last column.
- The exception's message: Python's `ValueError` names no column. `Columns.UnpackError` records the column at which the loop raises, so that "first bad column" can be stated.
- Python's `bool` being an `int` at line 67: cells are numbers, text or empty, and booleans do not occur.
- Floating point: numbers are exact reals, so NaN and infinities are not modelled.
- Column names that are not strings: every name is a string.
- openpyxl's `max_column` and `max_row` count every cell ever touched. Here they are the longest row and the number of rows; the two agree on sheets built from a table.
- The steps before the export (header search, row filtering, grade extraction, the term merge): their code is not part of this model.

=== FILE: alignment.dfy ===
/** When the two-row header lines up with the data. `to_excel` writes table
    column `pos` (from 0) into spreadsheet column `pos + 1`, while the header
    puts a subject's columns side by side from its group's start. The two
    agree exactly when the non-key columns are table columns 1, 2, ..., N
    and every subject's columns are already adjacent in the table. The first
    condition holds when `ALUNO` is the first column and no other column
    named `ALUNO` sits among the non-key ones. */
module Alignment {
  import opened Columns
  import opened Grouping
  import opened Layout

  /** Every grouped column's term label sits above that column's data. */
  predicate HeaderMatchesData(gs: seq<Group>) {
    forall k, i :: 0 <= k < |gs| && 0 <= i < |gs[k].columns| ==>
      Start(gs, k) + i == gs[k].columns[i].pos + 1
  }

  /** The non-key columns are table columns 1, 2, ..., N, in order. */
  predicate KeyLeads(es: seq<Entry>) {
    forall i :: 0 <= i < |es| ==> es[i].pos == i + 1
  }

  /** No subject's columns are interrupted by another subject's. */
  predicate SubjectsContiguous(es: seq<Entry>) {
    forall a, b, c :: 0 <= a < b < c < |es| && es[a].subject == es[c].subject ==> es[b].subject == es[a].subject
  }

  // ---------------------------------------------------------------------
  // Positions
  // ---------------------------------------------------------------------

  /** Positions of ordered entries grow at least by one per step. */
  lemma {:induction false} OrderedGap(es: seq<Entry>, a: nat, b: nat)
    requires Ordered(es) && a <= b < |es|
    ensures es[b].pos - es[a].pos >= b - a
    decreases b - a
  {
    if a < b {
      OrderedGap(es, a + 1, b);
    }
  }

  /** Ordered positions that all lie in 1..|es| are exactly 1, 2, ..., |es|. */
  lemma {:induction false} OrderedWithin(es: seq<Entry>)
    requires Ordered(es)
    requires forall t :: 0 <= t < |es| ==> 1 <= es[t].pos <= |es|
    ensures KeyLeads(es)
  {
    forall t | 0 <= t < |es| ensures es[t].pos == t + 1 {
      OrderedGap(es, 0, t);
      OrderedGap(es, t, |es| - 1);
    }
  }

  /** Some entry sits at table column `j`. */
  predicate HasPos(es: seq<Entry>, j: int) {
    exists t :: 0 <= t < |es| && es[t].pos == j
  }

  /** The first `i + 1` entries of an ordered list that holds every position
      from 1 to `n - 1` and nothing else sit at positions 1 to `i + 1`. */
  lemma {:induction false} DenseFrom(es: seq<Entry>, n: nat, i: nat)
    requires Ordered(es) && i < |es|
    requires forall t :: 0 <= t < |es| ==> 1 <= es[t].pos < n
    requires forall j :: 1 <= j < n ==> HasPos(es, j)
    ensures es[i].pos == i + 1
    decreases i
  {
    if i > 0 {
      DenseFrom(es, n, i - 1);
    }
    OrderedGap(es, 0, i);
    assert HasPos(es, i + 1);
    var t :| 0 <= t < |es| && es[t].pos == i + 1;
    assert i <= t by {
      if i > 0 {
        assert es[i - 1].pos < es[t].pos;
      }
    }
    assert t == i;
  }

  /** The kept entries of a table whose only key column is column 0 sit at
      columns 1, 2, .... */
  lemma {:induction false} KeptAfterKey(cols: seq<string>, es: seq<Entry>)
    requires |cols| > 0 && cols[0] == KeyColumn
    requires forall j :: 1 <= j < |cols| ==> cols[j] != KeyColumn
    requires ListsKept(cols, |cols|, es)
    ensures KeyLeads(es)
  {
    assert Ordered(es);
    forall t | 0 <= t < |es| ensures 1 <= es[t].pos < |cols| {
      assert cols[es[t].pos] != KeyColumn;
    }
    forall j | 1 <= j < |cols| ensures HasPos(es, j) {
      assert cols[j] != KeyColumn;
    }
    forall i | 0 <= i < |es| ensures es[i].pos == i + 1 {
      DenseFrom(es, |cols|, i);
    }
  }

  /** When the key column is the table's first column and no other column
      has its name, as in a table merged on student names, the non-key
      columns are columns 1, 2, .... */
  lemma {:induction false} KeyColumnFirst(cols: seq<string>)
    requires ParseColumns(cols).Ok?
    requires |cols| > 0 && cols[0] == KeyColumn
    requires forall j :: 1 <= j < |cols| ==> cols[j] != KeyColumn
    ensures KeyLeads(ParseColumns(cols).value)
  {
    KeptAfterKey(cols, ParseColumns(cols).value);
  }

  // ---------------------------------------------------------------------
  // Contiguous subjects give an aligned header
  // ---------------------------------------------------------------------

  /** For contiguous subjects, the last group opened is the last entry's subject. */
  lemma {:induction false} LastSubject(es: seq<Entry>)
    requires |es| > 0 && SubjectsContiguous(es)
    ensures |Subjects(es)| > 0 && Subjects(es)[|Subjects(es)| - 1] == es[|es| - 1].subject
  {
    var init := es[..|es| - 1];
    var x := es[|es| - 1];
    var ss := Subjects(init);
    if x.subject in ss && |init| > 0 {
      assert SubjectsContiguous(init);
      LastSubject(init);
      var a :| 0 <= a < |init| && init[a].subject == x.subject;
      if a < |init| - 1 {
        assert es[a].subject == es[|es| - 1].subject;
        assert es[|init| - 1].subject == es[a].subject;
      }
    }
  }

  /** The group-by's subjects are the loop's group keys, in order: the part
      of `GroupAllIsGroupBy` that the contiguity proofs need, stated alone so
      that they do not unfold the group members. */
  lemma {:induction false} GroupAllSubjects(es: seq<Entry>)
    ensures |GroupAll(es)| == |Subjects(es)|
    ensures forall k :: 0 <= k < |GroupAll(es)| ==> GroupAll(es)[k].subject == Subjects(es)[k]
  {
    GroupAllIsGroupBy(es);
  }

  /** Under contiguity, a column whose subject was seen before has the
      subject of the column just before it. */
  lemma {:induction false} RepeatsPrevious(es: seq<Entry>)
    requires |es| > 1 && SubjectsContiguous(es)
    requires es[|es| - 1].subject in Subjects(es[..|es| - 1])
    ensures es[|es| - 1].subject == es[|es| - 2].subject
  {
    var init := es[..|es| - 1];
    var a :| 0 <= a < |init| && init[a].subject == es[|es| - 1].subject;
    assert es[a] == init[a];
    if a < |es| - 2 {
      assert es[|es| - 2].subject == es[a].subject;
    }
  }

  /** A column whose subject is already grouped goes to the last group. */
  lemma {:induction false} InsertGoesLast(es: seq<Entry>)
    requires |es| > 1 && SubjectsContiguous(es)
    requires Find(GroupAll(es[..|es| - 1]), es[|es| - 1].subject) >= 0
    ensures Find(GroupAll(es[..|es| - 1]), es[|es| - 1].subject) == |GroupAll(es[..|es| - 1])| - 1
  {
    var init := es[..|es| - 1];
    var x := es[|es| - 1];
    var ss := Subjects(init);
    var gs := GroupAll(init);
    GroupAllSubjects(init);
    var k := Find(gs, x.subject);
    assert ss[k] == x.subject;
    assert ss[k] in ss;
    RepeatsPrevious(es);
    assert SubjectsContiguous(init);
    LastSubject(init);
    assert init[|init| - 1] == es[|es| - 2];
    assert ss[|ss| - 1] == x.subject;
  }

  /** An aligned header stays aligned when a column that belongs right
      after the header's end opens a new group. */
  lemma {:induction false} AppendAligned(gs: seq<Group>, x: Entry)
    requires HeaderMatchesData(gs) && Start(gs, |gs|) == x.pos + 1
    ensures HeaderMatchesData(gs + [Group(x.subject, [x])])
  {
    var gs' := gs + [Group(x.subject, [x])];
    forall k | 0 <= k <= |gs| ensures Start(gs', k) == Start(gs, k) {
      assert gs'[..k] == gs[..k];
    }
  }

  /** An aligned header stays aligned when such a column joins the last group. */
  lemma {:induction false} ExtendAligned(gs: seq<Group>, x: Entry)
    requires |gs| > 0 && HeaderMatchesData(gs) && Start(gs, |gs|) == x.pos + 1
    ensures var L := |gs| - 1;
      HeaderMatchesData(gs[L := Group(gs[L].subject, gs[L].columns + [x])])
  {
    var L := |gs| - 1;
    var gs' := gs[L := Group(gs[L].subject, gs[L].columns + [x])];
    StartStep(gs, L);
    forall k, i | 0 <= k < |gs'| && 0 <= i < |gs'[k].columns|
      ensures Start(gs', k) + i == gs'[k].columns[i].pos + 1
    {
      assert gs'[..k] == gs[..k];
      if k < L || i < |gs[L].columns| {
        assert gs'[k].columns[i] == gs[k].columns[i];
      }
    }
  }

  /** A column with a new subject opens a group right after the others. */
  lemma {:induction false} AlignedStepNew(es: seq<Entry>)
    requires |es| > 0 && KeyLeads(es)
    requires HeaderMatchesData(GroupAll(es[..|es| - 1]))
    requires Find(GroupAll(es[..|es| - 1]), es[|es| - 1].subject) < 0
    ensures HeaderMatchesData(GroupAll(es))
  {
    var init := es[..|es| - 1];
    var gs := GroupAll(init);
    WidthGroupAll(init);
    assert gs[..|gs|] == gs;
    AppendAligned(gs, es[|es| - 1]);
  }

  /** A column of the last group's subject extends that group by one. */
  lemma {:induction false} AlignedStepKnown(es: seq<Entry>)
    requires |es| > 0 && KeyLeads(es)
    requires HeaderMatchesData(GroupAll(es[..|es| - 1]))
    requires Find(GroupAll(es[..|es| - 1]), es[|es| - 1].subject) >= 0
    requires Find(GroupAll(es[..|es| - 1]), es[|es| - 1].subject) == |GroupAll(es[..|es| - 1])| - 1
    ensures HeaderMatchesData(GroupAll(es))
  {
    var init := es[..|es| - 1];
    var gs := GroupAll(init);
    WidthGroupAll(init);
    assert gs[..|gs|] == gs;
    ExtendAligned(gs, es[|es| - 1]);
  }

  /** Non-key columns at table columns 1..N with contiguous subjects give an
      aligned header. */
  lemma {:induction false} AlignedIfContiguous(es: seq<Entry>)
    requires KeyLeads(es) && SubjectsContiguous(es)
    ensures HeaderMatchesData(GroupAll(es))
  {
    if |es| > 0 {
      var init := es[..|es| - 1];
      assert KeyLeads(init) && SubjectsContiguous(init);
      AlignedIfContiguous(init);
      if Find(GroupAll(init), es[|es| - 1].subject) < 0 {
        AlignedStepNew(es);
      } else {
        assert |init| > 0;
        InsertGoesLast(es);
        AlignedStepKnown(es);
      }
    }
  }

  // ---------------------------------------------------------------------
  // An aligned header means contiguous subjects
  // ---------------------------------------------------------------------

  /** An aligned header puts the non-key columns at table columns 1..N. */
  lemma {:induction false} AlignedKeyLeads(es: seq<Entry>)
    requires Ordered(es) && HeaderMatchesData(GroupAll(es))
    ensures KeyLeads(es)
  {
    var gs := GroupAll(es);
    GroupAllSize(es);
    assert gs[..|gs|] == gs;
    forall t | 0 <= t < |es| ensures 1 <= es[t].pos <= |es| {
      EntryPlaced(es, t);
      var k, i :| 0 <= k < |gs| && 0 <= i < |gs[k].columns| && gs[k].columns[i] == es[t];
      ColumnWithin(gs, k, i);
    }
    OrderedWithin(es);
  }

  /** Every entry is somewhere in the dictionary. */
  lemma {:induction false} EntryPlaced(es: seq<Entry>, t: nat)
    requires Ordered(es) && t < |es|
    ensures exists k, i :: 0 <= k < |GroupAll(es)| && 0 <= i < |GroupAll(es)[k].columns| && GroupAll(es)[k].columns[i] == es[t]
  {
    var gs := GroupAll(es);
    GroupAllContents(es);
    var k, i :| 0 <= k < |gs| && 0 <= i < |gs[k].columns| && gs[k].columns[i] == es[t];
    assert GroupAll(es)[k].columns[i] == es[t];
  }

  /** Every grouped column lies between column B and the header's end. */
  lemma {:induction false} ColumnWithin(gs: seq<Group>, k: nat, i: nat)
    requires k < |gs| && i < |gs[k].columns|
    ensures FirstHeaderColumn <= Start(gs, k) + i < Start(gs, |gs|)
  {
    StartMonotone(gs, k, |gs|);
  }

  /** A column lying between two columns of one group belongs to that group. */
  lemma {:induction false} SpanBetween(gs: seq<Group>, k: nat, i: nat, k': nat, i': nat, j: nat)
    requires k < |gs| && k' < |gs| && i < |gs[k].columns| && j < |gs[k].columns| && i' < |gs[k'].columns|
    requires Start(gs, k) + i < Start(gs, k') + i' < Start(gs, k) + j
    ensures k' == k
  {
    if k < k' {
      StartMonotone(gs, k, k');
    } else if k' < k {
      StartMonotone(gs, k', k);
    }
  }

  /** One instance of contiguity under an aligned header. */
  lemma {:induction false} ContiguousAt(gs: seq<Group>, es: seq<Entry>, a: nat, b: nat, c: nat)
    requires GroupsOf(gs, es) && HeaderMatchesData(gs) && Ordered(es)
    requires a < b < c < |es| && es[a].subject == es[c].subject
    ensures es[b].subject == es[a].subject
  {
    var ka, ia :| 0 <= ka < |gs| && 0 <= ia < |gs[ka].columns| && gs[ka].columns[ia] == es[a];
    var kb, ib :| 0 <= kb < |gs| && 0 <= ib < |gs[kb].columns| && gs[kb].columns[ib] == es[b];
    var kc, ic :| 0 <= kc < |gs| && 0 <= ic < |gs[kc].columns| && gs[kc].columns[ic] == es[c];
    assert gs[ka].subject == gs[kc].subject;
    assert ka == kc;
    assert es[a].pos < es[b].pos < es[c].pos;
    SpanBetween(gs, ka, ia, kb, ib, ic);
  }

  /** An aligned header leaves no subject interrupted. */
  lemma {:induction false} AlignedContiguous(es: seq<Entry>)
    requires Ordered(es) && HeaderMatchesData(GroupAll(es))
    ensures SubjectsContiguous(es)
  {
    GroupAllContents(es);
    forall a, b, c | 0 <= a < b < c < |es| && es[a].subject == es[c].subject
      ensures es[b].subject == es[a].subject
    {
      ContiguousAt(GroupAll(es), es, a, b, c);
    }
  }

  /** A key column after the first table column with a non-key column
      somewhere behind it, as the second `ALUNO` in `ALUNO, A_1, ALUNO, B_1`,
      shifts the header: some label no longer sits above its own data. */
  lemma {:induction false} LaterKeyMisaligns(cols: seq<string>, j: nat, b: nat)
    requires ParseColumns(cols).Ok?
    requires 1 <= j < b < |cols| && cols[j] == KeyColumn && cols[b] != KeyColumn
    ensures !KeyLeads(ParseColumns(cols).value)
    ensures !HeaderMatchesData(GroupAll(ParseColumns(cols).value))
  {
    var es := ParseColumns(cols).value;
    assert ListsKept(cols, |cols|, es);
    var i :| 0 <= i < |es| && es[i].pos == b;
    if i + 1 != b {
      assert es[i].pos != i + 1;
    } else {
      assert cols[es[j - 1].pos] != KeyColumn;
      assert es[j - 1].pos != j;
    }
    ParsedOrdered(cols);
    if HeaderMatchesData(GroupAll(es)) {
      AlignedKeyLeads(es);
    }
  }

  /** The header lines up with the data exactly when the non-key columns are
      table columns 1..N and each subject's columns are adjacent in the table. */
  lemma {:induction false} AlignmentIff(cols: seq<string>)
    requires ParseColumns(cols).Ok?
    ensures var es := ParseColumns(cols).value;
      HeaderMatchesData(GroupAll(es)) <==> KeyLeads(es) && SubjectsContiguous(es)
  {
    var es := ParseColumns(cols).value;
    assert ListsKept(cols, |cols|, es);
    assert Ordered(es);
    if HeaderMatchesData(GroupAll(es)) {
      AlignedKeyLeads(es);
      AlignedContiguous(es);
    }
    if KeyLeads(es) && SubjectsContiguous(es) {
      AlignedIfContiguous(es);
    }
  }
}

=== FILE: columns.dfy ===
/** Reading the merged table's column names: every name except the student
    key is `<subject>_<term>`, as in `Ciências_B1`. */
module Columns {
  import opened Results
  import Strings

  /** The student-name column, skipped by the header layout. */
  const KeyColumn: string := "ALUNO"

  /** The character between subject and term in a column name. */
  const Separator: char := '_'

  /** One non-key column: its index among the table's columns, its full
      name, and the two halves of that name. */
  datatype Entry = Entry(pos: nat, name: string, subject: string, term: string)

  /** Where the loop stops when the two-target unpack
      `nome, bi = col.split("_")` raises `ValueError`: the column whose name
      does not split in two, and how many parts its split produced. The
      exception itself names no column; this record is the model's. */
  datatype LayoutError = UnpackError(column: string, parts: nat)

  /** How many separators a column name holds. */
  function Separators(name: string): nat
  {
    Strings.Count(name, Separator)
  }

  /** A name the two-target unpack accepts: exactly one separator. */
  predicate WellFormed(name: string) {
    Separators(name) == 1
  }

  /** `e` is column `pos`, named `name`, cut at its one separator. */
  predicate SplitsAs(e: Entry, pos: nat, name: string) {
    && e.pos == pos && e.name == name
    && e.subject + [Separator] + e.term == name
    && Separator !in e.subject && Separator !in e.term
  }

  /** Splits one column name into subject and term, or fails like the unpack. */
  function ParseColumn(pos: nat, name: string): (r: Result<Entry, LayoutError>)
    ensures r.Ok? <==> WellFormed(name)
    ensures r.Ok? ==> SplitsAs(r.value, pos, name)
    ensures r.Err? ==> r.error == UnpackError(name, Separators(name) + 1)
  {
    var parts := Strings.Split(name, Separator);
    if |parts| == 2 then
      assert Strings.Join(parts, Separator) == parts[0] + [Separator] + parts[1];
      Ok(Entry(pos, name, parts[0], parts[1]))
    else
      Err(UnpackError(name, |parts|))
  }

  /** `es` lists, in order, the parsed non-key columns among the first `n` names. */
  ghost predicate ListsKept(cols: seq<string>, n: nat, es: seq<Entry>)
    requires n <= |cols|
  {
    && (forall i :: 0 <= i < |es| ==>
          es[i].pos < n && cols[es[i].pos] != KeyColumn
          && SplitsAs(es[i], es[i].pos, cols[es[i].pos]))
    && (forall i, i' :: 0 <= i < i' < |es| ==> es[i].pos < es[i'].pos)
    && (forall j :: 0 <= j < n && cols[j] != KeyColumn ==> exists i :: 0 <= i < |es| && es[i].pos == j)
  }

  /** Column `j` is the first non-key column whose name the unpack rejects. */
  ghost predicate FirstBad(cols: seq<string>, j: nat)
  {
    && j < |cols|
    && cols[j] != KeyColumn && !WellFormed(cols[j])
    && forall j' :: 0 <= j' < j ==> cols[j'] == KeyColumn || WellFormed(cols[j'])
  }

  /** The loop over `df_final.columns` (app.py lines 18-21) run on the first
      `n` names: the key column is skipped, every other name is split, and
      the first name that does not split in two aborts the whole loop. */
  function ParsePrefix(cols: seq<string>, n: nat): (r: Result<seq<Entry>, LayoutError>)
    requires n <= |cols|
    ensures r.Ok? <==> forall j :: 0 <= j < n && cols[j] != KeyColumn ==> WellFormed(cols[j])
    ensures r.Ok? ==> ListsKept(cols, n, r.value)
    ensures r.Err? ==> exists j :: 0 <= j < n && FirstBad(cols, j)
                                   && r.error == UnpackError(cols[j], Separators(cols[j]) + 1)
    decreases n
  {
    if n == 0 then Ok([])
    else
      match ParsePrefix(cols, n - 1)
      case Err(e) => Err(e)
      case Ok(es) =>
        if cols[n - 1] == KeyColumn then
          KeptSkip(cols, n, es);
          Ok(es)
        else
          match ParseColumn(n - 1, cols[n - 1])
          case Err(e) =>
            assert FirstBad(cols, n - 1);
            Err(e)
          case Ok(e) =>
            KeptExtend(cols, n, es, e);
            Ok(es + [e])
  }

  lemma {:induction false} KeptSkip(cols: seq<string>, n: nat, es: seq<Entry>)
    requires 0 < n <= |cols| && cols[n - 1] == KeyColumn
    requires ListsKept(cols, n - 1, es)
    ensures ListsKept(cols, n, es)
  {
  }

  lemma {:induction false} KeptExtend(cols: seq<string>, n: nat, es: seq<Entry>, e: Entry)
    requires 0 < n <= |cols| && cols[n - 1] != KeyColumn
    requires ListsKept(cols, n - 1, es)
    requires ParseColumn(n - 1, cols[n - 1]) == Ok(e)
    ensures ListsKept(cols, n, es + [e])
  {
    var es' := es + [e];
    assert e.pos == n - 1 by {
      assert ParseColumn(n - 1, cols[n - 1]).Ok?;
    }
    forall i | 0 <= i < |es'|
      ensures es'[i].pos < n && cols[es'[i].pos] != KeyColumn
      ensures SplitsAs(es'[i], es'[i].pos, cols[es'[i].pos])
    {
      if i < |es| {
        assert es'[i] == es[i];
      }
    }
    forall i, i' | 0 <= i < i' < |es'|
      ensures es'[i].pos < es'[i'].pos
    {
      if i' < |es| {
        assert es'[i] == es[i] && es'[i'] == es[i'];
      } else {
        assert es'[i] == es[i];
      }
    }
    forall j | 0 <= j < n && cols[j] != KeyColumn
      ensures exists i :: 0 <= i < |es'| && es'[i].pos == j
    {
      if j == n - 1 {
        assert es'[|es|].pos == j;
      } else {
        var i :| 0 <= i < |es| && es[i].pos == j;
        assert es'[i].pos == j;
      }
    }
  }

  /** All of the column loop: the parsed non-key columns, or the first error. */
  function ParseColumns(cols: seq<string>): (r: Result<seq<Entry>, LayoutError>)
    ensures r.Ok? <==> forall j :: 0 <= j < |cols| && cols[j] != KeyColumn ==> WellFormed(cols[j])
    ensures r.Ok? ==> ListsKept(cols, |cols|, r.value)
    ensures r.Err? ==> exists j :: 0 <= j < |cols| && FirstBad(cols, j)
                                   && r.error == UnpackError(cols[j], Separators(cols[j]) + 1)
  {
    ParsePrefix(cols, |cols|)
  }

  /** The level-2 label of app.py line 48: every `B` of the term becomes `ºBi`. */
  function TermLabel(term: string): (lab: string)
    ensures |lab| == |term| + 2 * Strings.Count(term, 'B')
    ensures 'B' !in term ==> lab == term
  {
    Strings.Replace(term, 'B', "ºBi")
  }

  /** A term `B<d>` is labelled `ºBi<d>`, so `B1` reads `ºBi1` rather than
      the `1ºBi` the comment at app.py line 46 announces. */
  lemma {:induction false} TermLabelOfNumberedTerm(digits: string)
    requires 'B' !in digits
    ensures TermLabel("B" + digits) == "ºBi" + digits
    ensures |digits| > 0 ==> TermLabel("B" + digits) != digits + "ºBi"
  {
    Strings.ReplaceConcat("B", digits, 'B', "ºBi");
    if |digits| > 0 {
      var k := |digits| + 1;
      var lab := "ºBi" + digits;
      if |digits| >= 2 {
        assert lab[k] == digits[k - 3];
      }
      assert lab[k] != 'B';
      assert (digits + "ºBi")[k] == 'B';
    }
  }
}

=== FILE: grouping.dfy ===
/** The `materias` dictionary of app.py lines 17-24: non-key columns grouped
    by subject, subjects in order of first appearance, and each subject's
    columns in table order. */
module Grouping {
  import opened Columns

  /** One dictionary item: a subject and its columns, in insertion order. */
  datatype Group = Group(subject: string, columns: seq<Entry>)

  predicate Distinct(xs: seq<string>) {
    forall a, b :: 0 <= a < b < |xs| ==> xs[a] != xs[b]
  }

  /** Entries listed in strictly increasing column position. */
  predicate Ordered(es: seq<Entry>) {
    forall a, b :: 0 <= a < b < |es| ==> es[a].pos < es[b].pos
  }

  /** Every group holds at least one column. */
  predicate NonEmptyGroups(gs: seq<Group>) {
    forall k :: 0 <= k < |gs| ==> |gs[k].columns| > 0
  }

  /** Total number of columns held by the groups. */
  function Width(gs: seq<Group>): nat
  {
    if |gs| == 0 then 0 else Width(gs[..|gs| - 1]) + |gs[|gs| - 1].columns|
  }

  // ---------------------------------------------------------------------
  // The dictionary, as the loop builds it
  // ---------------------------------------------------------------------

  /** Dictionary lookup: the index of the group keyed `s`, or -1 when
      `nome not in materias`. */
  function Find(gs: seq<Group>, s: string): (k: int)
    ensures -1 <= k < |gs|
    ensures k == -1 <==> forall j :: 0 <= j < |gs| ==> gs[j].subject != s
    ensures k >= 0 ==> gs[k].subject == s && forall j :: 0 <= j < k ==> gs[j].subject != s
  {
    if |gs| == 0 then -1
    else
      var k := Find(gs[..|gs| - 1], s);
      if k >= 0 then k
      else if gs[|gs| - 1].subject == s then |gs| - 1
      else -1
  }

  /** One loop step (lines 22-24): open a new group for an unseen subject,
      then append the column to its subject's group. */
  function Insert(gs: seq<Group>, e: Entry): seq<Group>
  {
    var k := Find(gs, e.subject);
    if k < 0 then gs + [Group(e.subject, [e])]
    else gs[k := Group(gs[k].subject, gs[k].columns + [e])]
  }

  /** The whole loop: the columns inserted left to right. */
  function GroupAll(es: seq<Entry>): seq<Group>
  {
    if |es| == 0 then [] else Insert(GroupAll(es[..|es| - 1]), es[|es| - 1])
  }

  // ---------------------------------------------------------------------
  // A reference group-by
  // ---------------------------------------------------------------------

  /** The distinct subjects of `es`, in order of first appearance. */
  function Subjects(es: seq<Entry>): (ss: seq<string>)
    ensures Distinct(ss)
    ensures forall s :: s in ss <==> exists i :: 0 <= i < |es| && es[i].subject == s
  {
    if |es| == 0 then []
    else
      var prev := Subjects(es[..|es| - 1]);
      var s := es[|es| - 1].subject;
      assert forall i :: 0 <= i < |es| - 1 ==> es[..|es| - 1][i] == es[i];
      if s in prev then prev else prev + [s]
  }

  /** The entries of `es` with subject `s`, in their order in `es`. */
  function Members(es: seq<Entry>, s: string): (ms: seq<Entry>)
    ensures forall e :: e in ms <==> e in es && e.subject == s
    ensures Ordered(es) ==> Ordered(ms)
    ensures forall e :: e in es && e.subject == s ==> |ms| > 0
  {
    if |es| == 0 then []
    else
      var init := es[..|es| - 1];
      var last := es[|es| - 1];
      assert es == init + [last];
      var prev := Members(init, s);
      if last.subject == s then
        assert Ordered(es) ==> Ordered(prev + [last]) by {
          if Ordered(es) {
            assert Ordered(init);
            forall e | e in prev ensures e.pos < last.pos {
              var a :| 0 <= a < |init| && init[a] == e;
              assert es[a] == e;
            }
            OrderedSnoc(prev, last);
          }
        }
        prev + [last]
      else prev
  }

  /** An entry placed after every entry of an ordered list keeps it ordered. */
  lemma {:induction false} OrderedSnoc(es: seq<Entry>, e: Entry)
    requires Ordered(es) && forall d :: d in es ==> d.pos < e.pos
    ensures Ordered(es + [e])
  {
    var es' := es + [e];
    forall a, b | 0 <= a < b < |es'| ensures es'[a].pos < es'[b].pos {
      assert es'[a] == es[a] && es[a] in es;
      if b < |es| {
        assert es'[b] == es[b];
      }
    }
  }

  /** Group-by as a specification: one group per subject, in order of first
      appearance, holding exactly that subject's columns in table order. */
  function GroupBy(es: seq<Entry>): (gs: seq<Group>)
    ensures |gs| == |Subjects(es)|
    ensures forall k :: 0 <= k < |gs| ==>
      gs[k].subject == Subjects(es)[k] && gs[k].columns == Members(es, Subjects(es)[k])
  {
    var ss := Subjects(es);
    seq(|ss|, k requires 0 <= k < |ss| => Group(ss[k], Members(es, ss[k])))
  }

  // ---------------------------------------------------------------------
  // The loop computes the group-by
  // ---------------------------------------------------------------------

  lemma {:induction false} MembersOfAbsent(es: seq<Entry>, s: string)
    requires s !in Subjects(es)
    ensures Members(es, s) == []
  {
    if |es| > 0 {
      var init := es[..|es| - 1];
      assert forall i :: 0 <= i < |init| ==> init[i] == es[i];
      assert es[|es| - 1].subject != s;
      MembersOfAbsent(init, s);
    }
  }

  /** Inserting a column of an unseen subject opens a new group at the end. */
  lemma {:induction false} InsertNewSubject(es: seq<Entry>)
    requires |es| > 0
    requires Find(GroupBy(es[..|es| - 1]), es[|es| - 1].subject) < 0
    ensures Insert(GroupBy(es[..|es| - 1]), es[|es| - 1]) == GroupBy(es)
  {
    var init := es[..|es| - 1];
    var x := es[|es| - 1];
    var ss := Subjects(init);
    assert x.subject !in ss;
    MembersOfAbsent(init, x.subject);
    assert Subjects(es) == ss + [x.subject];
    assert Members(es, x.subject) == [x];
    forall j | 0 <= j < |ss| ensures Members(es, ss[j]) == Members(init, ss[j]) {
      assert ss[j] != x.subject;
    }
  }

  /** Inserting a column of a known subject appends it to that subject's group. */
  lemma {:induction false} InsertKnownSubject(es: seq<Entry>)
    requires |es| > 0
    requires Find(GroupBy(es[..|es| - 1]), es[|es| - 1].subject) >= 0
    ensures Insert(GroupBy(es[..|es| - 1]), es[|es| - 1]) == GroupBy(es)
  {
    var init := es[..|es| - 1];
    var x := es[|es| - 1];
    var ss := Subjects(init);
    var k := Find(GroupBy(init), x.subject);
    assert ss[k] == x.subject;
    assert Subjects(es) == ss;
    forall j | 0 <= j < |ss| && j != k
      ensures Members(es, ss[j]) == Members(init, ss[j])
    {
      assert ss[j] != x.subject;
    }
    assert Members(es, x.subject) == Members(init, x.subject) + [x];
  }

  /** The dictionary the loop builds is the reference group-by. */
  lemma {:induction false} GroupAllIsGroupBy(es: seq<Entry>)
    ensures GroupAll(es) == GroupBy(es)
  {
    if |es| > 0 {
      var init := es[..|es| - 1];
      GroupAllIsGroupBy(init);
      if Find(GroupBy(init), es[|es| - 1].subject) < 0 {
        InsertNewSubject(es);
      } else {
        InsertKnownSubject(es);
      }
    }
  }

  // ---------------------------------------------------------------------
  // Properties of the grouping
  // ---------------------------------------------------------------------

  lemma {:induction false} WidthUpdate(gs: seq<Group>, k: nat, g: Group)
    requires k < |gs|
    ensures Width(gs[k := g]) + |gs[k].columns| == Width(gs) + |g.columns|
    decreases |gs|
  {
    var gs' := gs[k := g];
    var n := |gs| - 1;
    if k < n {
      assert gs'[..n] == gs[..n][k := g];
      WidthUpdate(gs[..n], k, g);
    } else {
      assert gs'[..n] == gs[..n];
    }
  }

  /** Each loop step adds exactly one column to the dictionary. */
  lemma {:induction false} WidthGroupAll(es: seq<Entry>)
    ensures Width(GroupAll(es)) == |es|
  {
    if |es| > 0 {
      var init := es[..|es| - 1];
      var gs := GroupAll(init);
      var x := es[|es| - 1];
      WidthGroupAll(init);
      var k := Find(gs, x.subject);
      if k < 0 {
        assert (gs + [Group(x.subject, [x])])[..|gs|] == gs;
      } else {
        WidthUpdate(gs, k, Group(gs[k].subject, gs[k].columns + [x]));
      }
    }
  }

  /** A later group's subject never occurs before the earlier group's subject
      has occurred: groups come in order of first appearance. */
  lemma {:induction false} SubjectsFirstAppearance(es: seq<Entry>, k1: nat, k2: nat, i: nat)
    requires k1 < k2 < |Subjects(es)|
    requires i < |es| && es[i].subject == Subjects(es)[k2]
    ensures exists j :: 0 <= j < i && es[j].subject == Subjects(es)[k1]
    decreases |es|
  {
    var init := es[..|es| - 1];
    var ss := Subjects(init);
    assert forall t :: 0 <= t < |init| ==> init[t] == es[t];
    assert Subjects(es) == ss || Subjects(es) == ss + [es[|es| - 1].subject];
    if k2 < |ss| {
      assert Subjects(es)[k1] == ss[k1] && Subjects(es)[k2] == ss[k2];
      var i' := i;
      if i == |es| - 1 {
        i' :| 0 <= i' < |init| && init[i'].subject == ss[k2];
      }
      SubjectsFirstAppearance(init, k1, k2, i');
      var j :| 0 <= j < i' && init[j].subject == ss[k1];
      assert es[j].subject == Subjects(es)[k1];
    } else {
      assert Subjects(es) == ss + [es[|es| - 1].subject];
      forall t | 0 <= t < |init| ensures init[t].subject in ss {
      }
      assert i == |es| - 1;
      assert ss[k1] in ss;
      var j :| 0 <= j < |init| && init[j].subject == ss[k1];
      assert es[j].subject == Subjects(es)[k1];
    }
  }

  /** An entry of an ordered list is the one entry at its position. */
  lemma {:induction false} OrderedUniquePos(es: seq<Entry>, a: nat, b: nat)
    requires Ordered(es) && a < |es| && b < |es| && es[a].pos == es[b].pos
    ensures a == b
  {
  }

  /** Every group is non-empty, and the groups hold as many columns as there are entries. */
  lemma {:induction false} GroupAllSize(es: seq<Entry>)
    ensures Width(GroupAll(es)) == |es|
    ensures NonEmptyGroups(GroupAll(es))
  {
    var gs := GroupBy(es);
    GroupAllIsGroupBy(es);
    WidthGroupAll(es);
    var ss := Subjects(es);
    forall k | 0 <= k < |gs| ensures |gs[k].columns| > 0 {
      assert ss[k] in ss;
    }
  }

  /** A group of the group-by holds only entries of its subject. */
  lemma {:induction false} GroupByMembersOf(es: seq<Entry>)
    ensures var gs := GroupBy(es);
      forall k, i :: 0 <= k < |gs| && 0 <= i < |gs[k].columns| ==>
        gs[k].columns[i] in es && gs[k].columns[i].subject == gs[k].subject
  {
    var gs := GroupBy(es);
    var ss := Subjects(es);
    forall k, i | 0 <= k < |gs| && 0 <= i < |gs[k].columns|
      ensures gs[k].columns[i] in es && gs[k].columns[i].subject == gs[k].subject
    {
      assert gs[k].columns[i] in Members(es, ss[k]);
    }
  }

  /** Every entry has a place in the group-by. */
  lemma {:induction false} GroupByPlaces(es: seq<Entry>, t: nat)
    requires t < |es|
    ensures var gs := GroupBy(es);
      exists k, i :: 0 <= k < |gs| && 0 <= i < |gs[k].columns| && gs[k].columns[i] == es[t]
  {
    var gs := GroupBy(es);
    var ss := Subjects(es);
    assert es[t].subject in ss;
    var k :| 0 <= k < |ss| && ss[k] == es[t].subject;
    assert es[t] in Members(es, ss[k]);
    var i :| 0 <= i < |gs[k].columns| && gs[k].columns[i] == es[t];
  }

  /** Every entry is in the group of its subject, and only entries of that
      subject are, in table order. */
  lemma {:induction false} GroupByContents(es: seq<Entry>)
    requires Ordered(es)
    ensures var gs := GroupBy(es);
      && (forall k, k' :: 0 <= k < k' < |gs| ==> gs[k].subject != gs[k'].subject)
      && (forall k :: 0 <= k < |gs| ==> Ordered(gs[k].columns))
      && (forall k, i :: 0 <= k < |gs| && 0 <= i < |gs[k].columns| ==>
            gs[k].columns[i] in es && gs[k].columns[i].subject == gs[k].subject)
      && (forall t :: 0 <= t < |es| ==>
            exists k, i :: 0 <= k < |gs| && 0 <= i < |gs[k].columns| && gs[k].columns[i] == es[t])
  {
    GroupByMembersOf(es);
    forall t | 0 <= t < |es|
      ensures exists k, i :: 0 <= k < |GroupBy(es)| && 0 <= i < |GroupBy(es)[k].columns| && GroupBy(es)[k].columns[i] == es[t]
    {
      GroupByPlaces(es, t);
    }
  }

  /** `gs` groups the entries `es` by subject: one group per subject, each
      entry in some group, and a group holding only its subject's entries. */
  predicate GroupsOf(gs: seq<Group>, es: seq<Entry>) {
    && (forall k, k' :: 0 <= k < k' < |gs| ==> gs[k].subject != gs[k'].subject)
    && (forall k, i :: 0 <= k < |gs| && 0 <= i < |gs[k].columns| ==> gs[k].columns[i].subject == gs[k].subject)
    && (forall t :: 0 <= t < |es| ==>
          exists k, i :: 0 <= k < |gs| && 0 <= i < |gs[k].columns| && gs[k].columns[i] == es[t])
  }

  lemma {:induction false} GroupAllContents(es: seq<Entry>)
    requires Ordered(es)
    ensures var gs := GroupAll(es);
      && GroupsOf(gs, es)
      && (forall k :: 0 <= k < |gs| ==> Ordered(gs[k].columns))
      && (forall k, i :: 0 <= k < |gs| && 0 <= i < |gs[k].columns| ==> gs[k].columns[i] in es)
  {
    GroupAllIsGroupBy(es);
    GroupByContents(es);
  }

  /** No column sits in two places of the dictionary. */
  lemma {:induction false} GroupAllUnique(es: seq<Entry>)
    requires Ordered(es)
    ensures var gs := GroupAll(es);
      forall k, i, k', i' ::
        (0 <= k < |gs| && 0 <= i < |gs[k].columns| && 0 <= k' < |gs| && 0 <= i' < |gs[k'].columns| &&
         gs[k].columns[i].pos == gs[k'].columns[i'].pos) ==> k == k' && i == i'
  {
    var gs := GroupAll(es);
    GroupAllContents(es);
    forall k, i, k', i' | 0 <= k < |gs| && 0 <= i < |gs[k].columns| &&
        0 <= k' < |gs| && 0 <= i' < |gs[k'].columns| &&
        gs[k].columns[i].pos == gs[k'].columns[i'].pos
      ensures k == k' && i == i'
    {
      var e, e' := gs[k].columns[i], gs[k'].columns[i'];
      assert e in es && e' in es;
      var a :| 0 <= a < |es| && es[a] == e;
      var b :| 0 <= b < |es| && es[b] == e';
      OrderedUniquePos(es, a, b);
      assert e.subject == gs[k].subject && e'.subject == gs[k'].subject;
      assert k == k';
      assert Ordered(gs[k].columns);
    }
  }

  lemma {:induction false} GroupByFirstAppearance(es: seq<Entry>, k: nat, k': nat)
    requires Ordered(es)
    requires k < k' < |GroupBy(es)|
    ensures |GroupBy(es)[k].columns| > 0 && |GroupBy(es)[k'].columns| > 0
    ensures GroupBy(es)[k].columns[0].pos < GroupBy(es)[k'].columns[0].pos
  {
    var gs := GroupBy(es);
    var ss := Subjects(es);
    assert ss[k] in ss && ss[k'] in ss;
    var cs := Members(es, ss[k]);
    var cs' := Members(es, ss[k']);
    assert gs[k].columns == cs && gs[k'].columns == cs';
    var e := cs'[0];
    assert e in cs';
    var i :| 0 <= i < |es| && es[i] == e;
    SubjectsFirstAppearance(es, k, k', i);
    var j :| 0 <= j < i && es[j].subject == ss[k];
    assert es[j].pos < es[i].pos;
    assert es[j] in cs;
    var t :| 0 <= t < |cs| && cs[t] == es[j];
    assert Ordered(cs);
    if t > 0 {
      assert cs[0].pos < cs[t].pos;
    }
  }

  /** Each group's first column comes before the first column of every later group. */
  predicate FirstAppearanceOrder(gs: seq<Group>) {
    forall k, k' :: 0 <= k < k' < |gs| && |gs[k].columns| > 0 && |gs[k'].columns| > 0 ==>
      gs[k].columns[0].pos < gs[k'].columns[0].pos
  }

  /** Groups come in order of their subjects' first appearance. */
  lemma {:induction false} GroupAllFirstAppearance(es: seq<Entry>)
    requires Ordered(es)
    ensures FirstAppearanceOrder(GroupAll(es))
  {
    var gs := GroupAll(es);
    GroupAllIsGroupBy(es);
    forall k, k' | 0 <= k < k' < |gs| && |gs[k].columns| > 0 && |gs[k'].columns| > 0
      ensures gs[k].columns[0].pos < gs[k'].columns[0].pos
    {
      GroupByFirstAppearance(es, k, k');
    }
  }

  // ---------------------------------------------------------------------
  // In terms of the column names
  // ---------------------------------------------------------------------

  /** The parsed columns come in table order. */
  lemma {:induction false} ParsedOrdered(cols: seq<string>)
    requires ParseColumns(cols).Ok?
    ensures Ordered(ParseColumns(cols).value)
  {
    assert ListsKept(cols, |cols|, ParseColumns(cols).value);
  }

  /** Some group holds the column at table position `j`. */
  predicate Placed(gs: seq<Group>, j: nat) {
    exists k, i :: 0 <= k < |gs| && 0 <= i < |gs[k].columns| && gs[k].columns[i].pos == j
  }

  /** The grouped column in group `k`, place `i`, is a non-key column of
      `cols`, cut at its separator, and has the group's subject. */
  ghost predicate FromColumn(cols: seq<string>, gs: seq<Group>, k: nat, i: nat)
    requires k < |gs| && i < |gs[k].columns|
  {
    var e := gs[k].columns[i];
    && e.pos < |cols| && cols[e.pos] != KeyColumn
    && SplitsAs(e, e.pos, cols[e.pos])
    && e.subject == gs[k].subject
  }

  /** Every grouped column is a non-key column of `cols`, cut at its
      separator, in the group of its subject. */
  lemma {:induction false} GroupedFromColumns(cols: seq<string>)
    requires ParseColumns(cols).Ok?
    ensures var gs := GroupAll(ParseColumns(cols).value);
      forall k, i :: 0 <= k < |gs| && 0 <= i < |gs[k].columns| ==> FromColumn(cols, gs, k, i)
  {
    var es := ParseColumns(cols).value;
    var gs := GroupAll(es);
    assert ListsKept(cols, |cols|, es);
    ParsedOrdered(cols);
    forall k, i | 0 <= k < |gs| && 0 <= i < |gs[k].columns| ensures FromColumn(cols, gs, k, i) {
      var a := EntryOfGroup(es, k, i);
    }
  }

  /** Where a grouped column sits among the entries. */
  lemma {:induction false} EntryOfGroup(es: seq<Entry>, k: nat, i: nat) returns (a: nat)
    requires Ordered(es) && k < |GroupAll(es)| && i < |GroupAll(es)[k].columns|
    ensures a < |es| && es[a] == GroupAll(es)[k].columns[i]
    ensures es[a].subject == GroupAll(es)[k].subject
  {
    GroupAllContents(es);
    a :| 0 <= a < |es| && es[a] == GroupAll(es)[k].columns[i];
  }

  /** Every non-key column of `cols` is in some group. */
  lemma {:induction false} ColumnsPlaced(cols: seq<string>)
    requires ParseColumns(cols).Ok?
    ensures var gs := GroupAll(ParseColumns(cols).value);
      forall j :: 0 <= j < |cols| && cols[j] != KeyColumn ==> Placed(gs, j)
  {
    var es := ParseColumns(cols).value;
    var gs := GroupAll(es);
    assert ListsKept(cols, |cols|, es);
    ParsedOrdered(cols);
    GroupAllContents(es);
    forall j | 0 <= j < |cols| && cols[j] != KeyColumn ensures Placed(gs, j) {
      var a :| 0 <= a < |es| && es[a].pos == j;
      var k, i :| 0 <= k < |gs| && 0 <= i < |gs[k].columns| && gs[k].columns[i] == es[a];
    }
  }

  /** Every non-key column lands in exactly one group, the one keyed by the
      text before its separator, and the key column lands in none. */
  lemma {:induction false} ColumnsGrouped(cols: seq<string>)
    requires ParseColumns(cols).Ok?
    ensures var gs := GroupAll(ParseColumns(cols).value);
      && (forall k, i :: 0 <= k < |gs| && 0 <= i < |gs[k].columns| ==> FromColumn(cols, gs, k, i))
      && (forall j :: 0 <= j < |cols| && cols[j] != KeyColumn ==> Placed(gs, j))
      && (forall k, i, k', i' ::
            (0 <= k < |gs| && 0 <= i < |gs[k].columns| && 0 <= k' < |gs| && 0 <= i' < |gs[k'].columns| &&
             gs[k].columns[i].pos == gs[k'].columns[i'].pos) ==> k == k' && i == i')
  {
    GroupedFromColumns(cols);
    ColumnsPlaced(cols);
    ParsedOrdered(cols);
    GroupAllUnique(ParseColumns(cols).value);
  }
}

=== FILE: header.dfy ===
/** `formatar_cabecalho_duplo` (app.py lines 12-53): two blank rows go on
    top of the written table, row 1 gets each subject over its columns and
    row 2 gets each column's term label. */
module Header {
  import opened Results
  import opened Columns
  import opened Grouping
  import opened Layout
  import opened Sheet

  /** The header written into a sheet, with the merged ranges it asks for. */
  datatype Formatted = Formatted(sheet: Grid, merges: seq<Merge>)

  /** Column `c` is where some group starts. */
  predicate IsStart(gs: seq<Group>, c: int) {
    exists k :: 0 <= k < |gs| && Start(gs, k) == c
  }

  /** What the inner loop leaves at row `r`, column `c` of a sheet that had
      `under` there, when labelling `cs` from column `col`. */
  function LabelledCell(under: Cell, cs: seq<Entry>, col: nat, r: int, c: int): Cell
  {
    if r == TermRow && col <= c < col + |cs| then Text(TermLabel(cs[c - col].term)) else under
  }

  /** The inner loop (lines 47-49): column `col + i` of row 2 gets the label
      of the group's `i`-th column. */
  function WriteLabels(g: Grid, cs: seq<Entry>, col: nat): (g': Grid)
    requires col >= 1
    ensures forall r, c :: Get(g', r, c) == LabelledCell(Get(g, r, c), cs, col, r, c)
  {
    if |cs| == 0 then g
    else
      var prev := WriteLabels(g, cs[..|cs| - 1], col);
      assert forall i :: 0 <= i < |cs| - 1 ==> cs[..|cs| - 1][i] == cs[i];
      SetCell(prev, TermRow, col + |cs| - 1, Text(TermLabel(cs[|cs| - 1].term)))
  }

  /** One pass of the outer loop (lines 38-49) for a group starting at `col`:
      the subject in row 1, the labels in row 2. */
  function WriteGroup(g: Grid, grp: Group, col: nat): (g': Grid)
    requires col >= 1
    ensures forall r, c :: Get(g', r, c) == LabelledCell(
      if r == SubjectRow && c == col then Text(grp.subject) else Get(g, r, c), grp.columns, col, r, c)
  {
    WriteLabels(SetCell(g, SubjectRow, col, Text(grp.subject)), grp.columns, col)
  }

  /** The outer loop (lines 36-51): the groups written left to right, each
      from the column where the previous one ended (`col_excel`). */
  function WriteGroups(g: Grid, gs: seq<Group>): Grid
  {
    if |gs| == 0 then g
    else WriteGroup(WriteGroups(g, gs[..|gs| - 1]), gs[|gs| - 1], Start(gs, |gs| - 1))
  }

  /** Rows other than the two header rows are as they were. */
  ghost predicate OtherRowsKept(g: Grid, g': Grid) {
    forall r, c :: r != SubjectRow && r != TermRow ==> Get(g', r, c) == Get(g, r, c)
  }

  /** Each subject sits in row 1 at its group's start. */
  ghost predicate SubjectsWritten(gs: seq<Group>, g': Grid) {
    forall k :: 0 <= k < |gs| ==> Get(g', SubjectRow, Start(gs, k)) == Text(gs[k].subject)
  }

  /** Row 1 is as it was away from the groups' starts. */
  ghost predicate SubjectRowElsewhereKept(g: Grid, gs: seq<Group>, g': Grid) {
    forall c :: !IsStart(gs, c) ==> Get(g', SubjectRow, c) == Get(g, SubjectRow, c)
  }

  /** Each label sits in row 2 at its group's start plus its index. */
  ghost predicate LabelsWritten(gs: seq<Group>, g': Grid) {
    forall k, i :: 0 <= k < |gs| && 0 <= i < |gs[k].columns| ==>
      Get(g', TermRow, Start(gs, k) + i) == Text(TermLabel(gs[k].columns[i].term))
  }

  /** Row 2 is as it was outside the columns the groups occupy. */
  ghost predicate TermRowElsewhereKept(g: Grid, gs: seq<Group>, g': Grid) {
    forall c :: !(FirstHeaderColumn <= c < Start(gs, |gs|)) ==> Get(g', TermRow, c) == Get(g, TermRow, c)
  }

  /** `g'` is `g` with the header rows of `gs` written and nothing else changed. */
  ghost predicate HeaderWritten(g: Grid, gs: seq<Group>, g': Grid)
  {
    && OtherRowsKept(g, g')
    && SubjectsWritten(gs, g')
    && SubjectRowElsewhereKept(g, gs, g')
    && LabelsWritten(gs, g')
    && TermRowElsewhereKept(g, gs, g')
  }

  /** Laying out one more group leaves the earlier groups' places unchanged
      and puts the new group after all of them. */
  lemma {:induction false} StartsOfPrefix(gs: seq<Group>)
    requires |gs| > 0
    ensures var init := gs[..|gs| - 1];
      && (forall k :: 0 <= k <= |init| ==> Start(init, k) == Start(gs, k))
      && (forall k :: 0 <= k < |init| ==> Start(gs, k) + |gs[k].columns| <= Start(gs, |init|))
      && Start(gs, |gs|) == Start(gs, |init|) + |gs[|init|].columns|
  {
    var init := gs[..|gs| - 1];
    forall k | 0 <= k <= |init| ensures Start(init, k) == Start(gs, k) {
      assert init[..k] == gs[..k];
    }
    forall k | 0 <= k < |init| ensures Start(gs, k) + |gs[k].columns| <= Start(gs, |init|) {
      StartMonotone(gs, k, |init|);
    }
    StartStep(gs, |init|);
  }

  /** The subject of an earlier, non-empty group survives writing the last group. */
  lemma {:induction false} StepSubjectAt(gs: seq<Group>, prev: Grid, k: nat)
    requires |gs| > 0 && k < |gs| - 1 && |gs[k].columns| > 0
    requires Get(prev, SubjectRow, Start(gs[..|gs| - 1], k)) == Text(gs[k].subject)
    ensures Get(WriteGroup(prev, gs[|gs| - 1], Start(gs, |gs| - 1)), SubjectRow, Start(gs, k))
      == Text(gs[k].subject)
  {
    var L := |gs| - 1;
    var c := Start(gs, k);
    assert gs[..L][..k] == gs[..k];
    StartMonotone(gs, k, L);
    var g' := WriteGroup(prev, gs[L], Start(gs, L));
    assert Get(g', SubjectRow, c) == LabelledCell(Get(prev, SubjectRow, c), gs[L].columns, Start(gs, L), SubjectRow, c);
  }

  lemma {:induction false} StepSubjects(gs: seq<Group>, prev: Grid)
    requires |gs| > 0 && NonEmptyGroups(gs)
    requires SubjectsWritten(gs[..|gs| - 1], prev)
    ensures SubjectsWritten(gs, WriteGroup(prev, gs[|gs| - 1], Start(gs, |gs| - 1)))
  {
    var init := gs[..|gs| - 1];
    var g' := WriteGroup(prev, gs[|gs| - 1], Start(gs, |gs| - 1));
    forall k | 0 <= k < |gs| ensures Get(g', SubjectRow, Start(gs, k)) == Text(gs[k].subject) {
      if k < |init| {
        assert init[k] == gs[k];
        StepSubjectAt(gs, prev, k);
      }
    }
  }

  lemma {:induction false} StepSubjectRow(g: Grid, gs: seq<Group>, prev: Grid)
    requires |gs| > 0 && NonEmptyGroups(gs)
    requires SubjectRowElsewhereKept(g, gs[..|gs| - 1], prev)
    ensures SubjectRowElsewhereKept(g, gs, WriteGroup(prev, gs[|gs| - 1], Start(gs, |gs| - 1)))
  {
    var init := gs[..|gs| - 1];
    StartsOfPrefix(gs);
    var g' := WriteGroup(prev, gs[|gs| - 1], Start(gs, |gs| - 1));
    forall c | !IsStart(gs, c) ensures Get(g', SubjectRow, c) == Get(g, SubjectRow, c) {
      assert c != Start(gs, |init|);
      forall k | 0 <= k < |init| ensures Start(init, k) != c {
        assert Start(gs, k) != c;
      }
      assert !IsStart(init, c);
    }
  }

  /** One label of an earlier group survives writing the last group. */
  lemma {:induction false} StepLabelAt(gs: seq<Group>, prev: Grid, k: nat, i: nat)
    requires |gs| > 0 && k < |gs| - 1 && i < |gs[k].columns|
    requires Get(prev, TermRow, Start(gs[..|gs| - 1], k) + i) == Text(TermLabel(gs[k].columns[i].term))
    ensures Get(WriteGroup(prev, gs[|gs| - 1], Start(gs, |gs| - 1)), TermRow, Start(gs, k) + i)
      == Text(TermLabel(gs[k].columns[i].term))
  {
    var L := |gs| - 1;
    var c := Start(gs, k) + i;
    assert gs[..L][..k] == gs[..k];
    StartMonotone(gs, k, L);
    var g' := WriteGroup(prev, gs[L], Start(gs, L));
    assert Get(g', TermRow, c) == LabelledCell(Get(prev, TermRow, c), gs[L].columns, Start(gs, L), TermRow, c);
  }

  /** The last group's labels are written by its own pass. */
  lemma {:induction false} StepLabelLast(gs: seq<Group>, prev: Grid, i: nat)
    requires |gs| > 0 && i < |gs[|gs| - 1].columns|
    ensures Get(WriteGroup(prev, gs[|gs| - 1], Start(gs, |gs| - 1)), TermRow, Start(gs, |gs| - 1) + i)
      == Text(TermLabel(gs[|gs| - 1].columns[i].term))
  {
  }

  lemma {:induction false} StepLabels(gs: seq<Group>, prev: Grid)
    requires |gs| > 0 && NonEmptyGroups(gs)
    requires LabelsWritten(gs[..|gs| - 1], prev)
    ensures LabelsWritten(gs, WriteGroup(prev, gs[|gs| - 1], Start(gs, |gs| - 1)))
  {
    var init := gs[..|gs| - 1];
    var g' := WriteGroup(prev, gs[|gs| - 1], Start(gs, |gs| - 1));
    forall k, i | 0 <= k < |gs| && 0 <= i < |gs[k].columns|
      ensures Get(g', TermRow, Start(gs, k) + i) == Text(TermLabel(gs[k].columns[i].term))
    {
      if k < |init| {
        assert init[k] == gs[k];
        StepLabelAt(gs, prev, k, i);
      } else {
        StepLabelLast(gs, prev, i);
      }
    }
  }

  lemma {:induction false} StepTermRow(g: Grid, gs: seq<Group>, prev: Grid)
    requires |gs| > 0 && NonEmptyGroups(gs)
    requires TermRowElsewhereKept(g, gs[..|gs| - 1], prev)
    ensures TermRowElsewhereKept(g, gs, WriteGroup(prev, gs[|gs| - 1], Start(gs, |gs| - 1)))
  {
    StartsOfPrefix(gs);
  }

  /** The loop writes exactly the header of the groups it is given. */
  lemma {:induction false} WriteGroupsWritesHeader(g: Grid, gs: seq<Group>)
    requires NonEmptyGroups(gs)
    ensures HeaderWritten(g, gs, WriteGroups(g, gs))
  {
    if |gs| == 0 {
      assert gs[..0] == [];
    } else {
      var init := gs[..|gs| - 1];
      WriteGroupsWritesHeader(g, init);
      var prev := WriteGroups(g, init);
      StepSubjects(gs, prev);
      StepSubjectRow(g, gs, prev);
      StepLabels(gs, prev);
      StepTermRow(g, gs, prev);
    }
  }

  /** The sheet after lines 27-32: two blank rows inserted on top, then
      A1 set to empty text and A2 to the key column's name. */
  function BlankHeader(sheet: Grid): (g: Grid)
    ensures forall r, c :: r > TermRow ==> Get(g, r, c) == Get(sheet, r - 2, c)
    ensures Get(g, SubjectRow, 1) == Text("") && Get(g, TermRow, 1) == Text(KeyColumn)
    ensures forall c :: c != 1 ==> Get(g, SubjectRow, c) == Empty && Get(g, TermRow, c) == Empty
  {
    var blank := InsertTopRow(InsertTopRow(sheet));
    SetCell(SetCell(blank, SubjectRow, 1, Text("")), TermRow, 1, Text(KeyColumn))
  }

  /** The whole of `formatar_cabecalho_duplo` on the sheet `sheet` written
      from a table with column names `cols`. The column loop runs first, so
      a bad name fails before the sheet is touched; otherwise two rows are
      inserted on top, A1 and A2 are filled, and the groups are written. */
  function FormatDoubleHeader(sheet: Grid, cols: seq<string>): (r: Result<Formatted, LayoutError>)
    ensures r.Err? <==> exists j :: 0 <= j < |cols| && cols[j] != KeyColumn && !WellFormed(cols[j])
    ensures r.Err? ==> exists j :: 0 <= j < |cols| && FirstBad(cols, j)
                                   && r.error == UnpackError(cols[j], Separators(cols[j]) + 1)
  {
    match ParseColumns(cols)
    case Err(e) => Err(e)
    case Ok(es) =>
      var gs := GroupAll(es);
      Ok(Formatted(WriteGroups(BlankHeader(sheet), gs), Merges(gs)))
  }

  /** Row 1 of the groups written over the blank header rows. */
  lemma {:induction false} SubjectRowOverBlank(sheet: Grid, gs: seq<Group>)
    requires NonEmptyGroups(gs)
    ensures var out := WriteGroups(BlankHeader(sheet), gs);
      && Get(out, SubjectRow, 1) == Text("")
      && (forall c :: c != 1 && !IsStart(gs, c) ==> Get(out, SubjectRow, c) == Empty)
  {
    var named := BlankHeader(sheet);
    var out := WriteGroups(named, gs);
    WriteGroupsWritesHeader(named, gs);
    assert SubjectRowElsewhereKept(named, gs, out);
    assert |gs| > 0 ==> gs[..0] == [];
    forall k | 0 <= k < |gs| ensures Start(gs, k) != 1 { }
    assert !IsStart(gs, 1);
    forall c | c != 1 && !IsStart(gs, c) ensures Get(out, SubjectRow, c) == Empty {
      assert Get(out, SubjectRow, c) == Get(named, SubjectRow, c);
    }
  }

  /** Row 2 of the groups written over the blank header rows. */
  lemma {:induction false} TermRowOverBlank(sheet: Grid, gs: seq<Group>)
    requires NonEmptyGroups(gs)
    ensures var out := WriteGroups(BlankHeader(sheet), gs);
      && Get(out, TermRow, 1) == Text(KeyColumn)
      && (forall c :: c != 1 && !(FirstHeaderColumn <= c <= FirstHeaderColumn + Width(gs) - 1) ==>
            Get(out, TermRow, c) == Empty)
  {
    var named := BlankHeader(sheet);
    var out := WriteGroups(named, gs);
    WriteGroupsWritesHeader(named, gs);
    assert TermRowElsewhereKept(named, gs, out);
    assert gs[..|gs|] == gs;
    assert Start(gs, |gs|) == FirstHeaderColumn + Width(gs);
    forall c | c != 1 && !(FirstHeaderColumn <= c <= FirstHeaderColumn + Width(gs) - 1)
      ensures Get(out, TermRow, c) == Empty
    {
      assert Get(out, TermRow, c) == Get(named, TermRow, c);
    }
  }

  /** The groups written over the blank header rows. */
  lemma {:induction false} HeaderOverBlank(sheet: Grid, gs: seq<Group>)
    requires NonEmptyGroups(gs)
    ensures var out := WriteGroups(BlankHeader(sheet), gs);
      && (forall row, c :: row > TermRow ==> Get(out, row, c) == Get(sheet, row - 2, c))
      && Get(out, SubjectRow, 1) == Text("")
      && Get(out, TermRow, 1) == Text(KeyColumn)
      && SubjectsWritten(gs, out)
      && (forall c :: c != 1 && !IsStart(gs, c) ==> Get(out, SubjectRow, c) == Empty)
      && LabelsWritten(gs, out)
      && (forall c :: c != 1 && !(FirstHeaderColumn <= c <= FirstHeaderColumn + Width(gs) - 1) ==>
            Get(out, TermRow, c) == Empty)
  {
    var named := BlankHeader(sheet);
    var out := WriteGroups(named, gs);
    WriteGroupsWritesHeader(named, gs);
    assert OtherRowsKept(named, out);
    SubjectRowOverBlank(sheet, gs);
    TermRowOverBlank(sheet, gs);
  }

  /** What a successful run leaves in the sheet: every original row two rows
      lower, A1 empty text and A2 the key column's name, each subject at its
      group's start in row 1 and nothing else there, each term label in row 2
      at its group's start plus its index and nothing else there beyond
      column 1 + the number of non-key columns, and one merged range per
      subject. */
  lemma {:induction false} HeaderCells(sheet: Grid, cols: seq<string>)
    requires FormatDoubleHeader(sheet, cols).Ok?
    ensures var es := ParseColumns(cols).value;
      var gs := GroupAll(es);
      var f := FormatDoubleHeader(sheet, cols).value;
      var out := f.sheet;
      && (forall row, c :: row > TermRow ==> Get(out, row, c) == Get(sheet, row - 2, c))
      && Get(out, SubjectRow, 1) == Text("")
      && Get(out, TermRow, 1) == Text(KeyColumn)
      && SubjectsWritten(gs, out)
      && (forall c :: c != 1 && !IsStart(gs, c) ==> Get(out, SubjectRow, c) == Empty)
      && LabelsWritten(gs, out)
      && (forall c :: c != 1 && !(FirstHeaderColumn <= c <= FirstHeaderColumn + |es| - 1) ==>
            Get(out, TermRow, c) == Empty)
      && f.merges == Merges(gs)
  {
    var es := ParseColumns(cols).value;
    var gs := GroupAll(es);
    GroupAllSize(es);
    assert FormatDoubleHeader(sheet, cols).value == Formatted(WriteGroups(BlankHeader(sheet), gs), Merges(gs));
    HeaderOverBlank(sheet, gs);
  }
}

=== FILE: layout.dfy ===
/** Where the grouped header goes (app.py lines 34-51): groups are laid out
    left to right from column B, each as wide as its number of columns. */
module Layout {
  import opened Grouping

  /** The header starts in spreadsheet column 2, column B (line 34). */
  const FirstHeaderColumn: nat := 2

  /** The row of the merged subject cells. */
  const SubjectRow: nat := 1

  /** The row of the term labels. */
  const TermRow: nat := 2

  /** A merged range of one row, `merge_cells(start_row=row, start_column=first,
      end_row=row, end_column=last)`. */
  datatype Merge = Merge(row: nat, first: int, last: int)

  /** The column where group `k` starts: column B plus the widths of the
      groups before it. */
  function Start(gs: seq<Group>, k: nat): nat
    requires k <= |gs|
  {
    FirstHeaderColumn + Width(gs[..k])
  }

  /** Column `c` lies in the merged range `m`. */
  predicate InSpan(m: Merge, c: int) {
    m.first <= c <= m.last
  }

  /** Some merged range holds column `c`. */
  predicate Covered(ms: seq<Merge>, c: int) {
    exists k :: 0 <= k < |ms| && InSpan(ms[k], c)
  }

  /** The merged subject ranges, as the loop emits them: `col_excel` is
      column B plus the columns already laid out, and the range of a group
      with `n_cols` columns ends at `col_excel + n_cols - 1`. */
  function Merges(gs: seq<Group>): (ms: seq<Merge>)
    ensures |ms| == |gs|
    ensures forall k :: 0 <= k < |gs| ==>
      ms[k].row == SubjectRow && ms[k].first == Start(gs, k)
      && ms[k].last - ms[k].first + 1 == |gs[k].columns|
  {
    if |gs| == 0 then []
    else
      var init := gs[..|gs| - 1];
      var col := FirstHeaderColumn + Width(init);
      var prev := Merges(init);
      assert forall k :: 0 <= k < |init| ==> gs[..k] == init[..k];
      assert gs[..|init|] == init;
      prev + [Merge(SubjectRow, col, col + |gs[|gs| - 1].columns| - 1)]
  }

  /** Moving from one group to the next advances the start by the group's width. */
  lemma {:induction false} StartStep(gs: seq<Group>, k: nat)
    requires k < |gs|
    ensures Start(gs, k + 1) == Start(gs, k) + |gs[k].columns|
  {
    assert gs[..k + 1][..k] == gs[..k];
  }

  /** Starts never decrease, and a group ends before any later group starts. */
  lemma {:induction false} StartMonotone(gs: seq<Group>, k: nat, k': nat)
    requires k < k' <= |gs|
    ensures Start(gs, k) + |gs[k].columns| <= Start(gs, k')
    decreases k' - k
  {
    StartStep(gs, k);
    if k + 1 < k' {
      StartMonotone(gs, k + 1, k');
    }
  }

  /** The group whose columns include `c`. */
  lemma {:induction false} Locate(gs: seq<Group>, c: int) returns (k: nat)
    requires FirstHeaderColumn <= c < Start(gs, |gs|)
    ensures k < |gs| && Start(gs, k) <= c < Start(gs, k) + |gs[k].columns|
    decreases |gs|
  {
    var init := gs[..|gs| - 1];
    assert gs[..|gs|] == gs;
    if c >= Start(gs, |gs| - 1) {
      k := |gs| - 1;
      StartStep(gs, k);
    } else {
      assert gs[..|gs| - 1] == init;
      assert init[..|init|] == init;
      k := Locate(init, c);
      assert gs[..k] == init[..k];
      StartStep(init, k);
      StartStep(gs, k);
    }
  }

  /** Consecutive merged ranges: the first starts at column B and each next
      one starts one past the previous end. */
  lemma {:induction false} MergesAdjacent(gs: seq<Group>)
    requires NonEmptyGroups(gs)
    ensures var ms := Merges(gs);
      && (|gs| > 0 ==> ms[0].first == FirstHeaderColumn)
      && (forall k :: 0 <= k < |gs| ==> ms[k].first <= ms[k].last)
      && (forall k :: 0 < k < |gs| ==> ms[k].first == ms[k - 1].last + 1)
  {
    var ms := Merges(gs);
    assert |gs| > 0 ==> gs[..0] == [];
    forall k | 0 < k < |gs| ensures ms[k].first == ms[k - 1].last + 1 {
      StartStep(gs, k - 1);
    }
  }

  /** No two merged ranges share a column. */
  lemma {:induction false} MergesDisjoint(gs: seq<Group>)
    ensures var ms := Merges(gs);
      forall k, k', c :: 0 <= k < k' < |gs| && InSpan(ms[k], c) ==> !InSpan(ms[k'], c)
  {
    var ms := Merges(gs);
    forall k, k', c | 0 <= k < k' < |gs| && InSpan(ms[k], c)
      ensures !InSpan(ms[k'], c)
    {
      StartMonotone(gs, k, k');
    }
  }

  /** Together the merged ranges cover exactly columns 2 through 1 + the
      number of grouped columns. */
  lemma {:induction false} MergesCover(gs: seq<Group>)
    ensures var ms := Merges(gs);
      forall c :: Covered(ms, c) <==> FirstHeaderColumn <= c <= FirstHeaderColumn + Width(gs) - 1
  {
    var ms := Merges(gs);
    assert gs[..|gs|] == gs;
    forall c ensures Covered(ms, c) <==> FirstHeaderColumn <= c <= FirstHeaderColumn + Width(gs) - 1
    {
      if FirstHeaderColumn <= c <= FirstHeaderColumn + Width(gs) - 1 {
        var k := Locate(gs, c);
        assert InSpan(ms[k], c);
      }
      if Covered(ms, c) {
        var k :| 0 <= k < |gs| && InSpan(ms[k], c);
        StartMonotone(gs, k, |gs|);
      }
    }
  }
}

=== FILE: marking.dfy ===
/** `colorir_notas` (app.py lines 59-70): failing grades get a red font. The
    font is modelled as a boolean mask beside the cells. */
module Marking {
  import opened Header
  import opened Sheet

  /** Grades strictly below this mark are failing (line 67). */
  const PassMark: real := 5.0

  /** A numeric value below the pass mark; text and empty cells never fail. */
  predicate IsFailingGrade(v: Cell) {
    v.Num? && v.n < PassMark
  }

  /** The cell at row `r`, column `c` holding `v` is painted red: it is past
      the name column, below the two header rows, and failing. */
  predicate Marked(r: int, c: int, v: Cell) {
    c >= 2 && r >= 3 && IsFailingGrade(v)
  }

  /** The sheet after colouring: the cells, and for each cell whether its
      font is red. */
  datatype Styled = Styled(cells: Grid, red: seq<seq<bool>>)

  /** An all-false mask of the grid's shape. */
  function Unmarked(g: Grid): (m: seq<seq<bool>>)
    ensures |m| == |g| && forall r :: 0 <= r < |g| ==> |m[r]| == |g[r]|
    ensures forall r, c :: 0 <= r < |g| && 0 <= c < |g[r]| ==> !m[r][c]
  {
    seq(|g|, r requires 0 <= r < |g| => seq(|g[r]|, _ => false))
  }

  /** The two loops of lines 64-68, columns 2 to `max_column` outside and
      rows 3 to `max_row` inside: a cell is painted red exactly when
      `Marked` says so, and no cell value changes. */
  method ColorGrades(g: Grid) returns (out: Styled)
    ensures out.cells == g
    ensures |out.red| == |g| && forall r :: 0 <= r < |g| ==> |out.red[r]| == |g[r]|
    ensures forall r, c :: 0 <= r < |g| && 0 <= c < |g[r]| ==>
      (out.red[r][c] <==> Marked(r + 1, c + 1, g[r][c]))
  {
    var red := Unmarked(g);
    var maxCol := MaxColumn(g);
    var maxRow := |g|;
    var col := 2;
    while col <= maxCol
      invariant 2 <= col && (col <= maxCol + 1 || col == 2)
      invariant |red| == |g| && forall r :: 0 <= r < |g| ==> |red[r]| == |g[r]|
      invariant forall r, c :: 0 <= r < |g| && 0 <= c < |g[r]| ==>
        (red[r][c] <==> c + 1 < col && Marked(r + 1, c + 1, g[r][c]))
    {
      var row := 3;
      while row <= maxRow
        invariant 3 <= row && (row <= maxRow + 1 || row == 3)
        invariant |red| == |g| && forall r :: 0 <= r < |g| ==> |red[r]| == |g[r]|
        invariant forall r, c :: 0 <= r < |g| && 0 <= c < |g[r]| ==>
          (red[r][c] <==> (c + 1 < col || (c + 1 == col && r + 1 < row)) && Marked(r + 1, c + 1, g[r][c]))
      {
        var v := Get(g, row, col);
        if IsFailingGrade(v) {
          red := red[row - 1 := red[row - 1][col - 1 := true]];
        }
        row := row + 1;
      }
      col := col + 1;
    }
    out := Styled(g, red);
  }

  /** The exported sheet, end to end: the table `cols`/`body` written by
      `to_excel`, given its two-row header, then coloured. Nothing in the
      three header rows is ever marked, and a table cell in row `i`,
      column `j` (both from 0) lands in sheet row `i + 4`, column `j + 1`,
      where it is marked exactly when it is past the first column and a
      failing grade. */
  lemma {:induction false} ExportedMarks(cols: seq<string>, body: seq<seq<Cell>>)
    requires FormatDoubleHeader(Frame(cols, body), cols).Ok?
    ensures var out := FormatDoubleHeader(Frame(cols, body), cols).value.sheet;
      && (forall r, c :: r <= 3 ==> !Marked(r, c, Get(out, r, c)))
      && (forall i, j :: 0 <= i < |body| && 0 <= j < |body[i]| ==>
            Get(out, i + 4, j + 1) == body[i][j] &&
            (Marked(i + 4, j + 1, Get(out, i + 4, j + 1)) <==> j >= 1 && IsFailingGrade(body[i][j])))
  {
    var sheet := Frame(cols, body);
    var out := FormatDoubleHeader(sheet, cols).value.sheet;
    HeaderCells(sheet, cols);
    forall c ensures !Marked(3, c, Get(out, 3, c)) {
      assert Get(out, 3, c) == Get(sheet, 1, c);
    }
    forall i, j | 0 <= i < |body| && 0 <= j < |body[i]|
      ensures Get(out, i + 4, j + 1) == body[i][j]
    {
      assert Get(out, i + 4, j + 1) == Get(sheet, i + 2, j + 1);
    }
  }
}

=== FILE: results.dfy ===
/** Success/failure values: the model's stand-in for a Python exception that
    aborts an operation before it has any effect, recording where it stopped. */
module Results {

  datatype Result<+T, +E> = Ok(value: T) | Err(error: E)
}

=== FILE: sheet.dfy ===
/** The worksheet as an in-memory grid of cells. Rows and columns are
    numbered from 1 as in the spreadsheet; rows may have different lengths,
    and a cell beyond the end of its row, or in a missing row, is empty. */
module Sheet {

  /** A cell value: a number (an `int` or a `float`), text, or nothing. */
  datatype Cell = Num(n: real) | Text(s: string) | Empty

  type Grid = seq<seq<Cell>>

  /** The value of the cell at row `r`, column `c`. */
  function Get(g: Grid, r: int, c: int): Cell
  {
    if 1 <= r <= |g| && 1 <= c <= |g[r - 1]| then g[r - 1][c - 1] else Empty
  }

  /** Widens a row to at least `n` cells with empty ones. */
  function PadRow(row: seq<Cell>, n: nat): (p: seq<Cell>)
    ensures |p| >= n && |p| >= |row|
    ensures forall i :: 0 <= i < |p| ==> p[i] == if i < |row| then row[i] else Empty
  {
    if |row| >= n then row else row + seq(n - |row|, _ => Empty)
  }

  /** Lengthens a grid to at least `n` rows with empty ones. */
  function PadRows(g: Grid, n: nat): (p: Grid)
    ensures |p| >= n && |p| >= |g|
    ensures forall i :: 0 <= i < |p| ==> p[i] == if i < |g| then g[i] else []
  {
    if |g| >= n then g else g + seq(n - |g|, _ => [])
  }

  /** `ws.cell(row=r, column=c, value=v)`: writes one cell and nothing else. */
  function SetCell(g: Grid, r: nat, c: nat, v: Cell): (g': Grid)
    requires r >= 1 && c >= 1
    ensures Get(g', r, c) == v
    ensures forall r', c' :: r' != r || c' != c ==> Get(g', r', c') == Get(g, r', c')
  {
    var rows := PadRows(g, r);
    var row := PadRow(rows[r - 1], c);
    rows[r - 1 := row[c - 1 := v]]
  }

  /** `ws.insert_rows(1)`: a blank row on top, every row moving down by one. */
  function InsertTopRow(g: Grid): (g': Grid)
    ensures forall r, c :: Get(g', r, c) == if r <= 1 then Empty else Get(g, r - 1, c)
  {
    [[]] + g
  }

  /** The number of the last column holding a cell, `ws.max_column`. */
  function MaxColumn(g: Grid): (m: nat)
    ensures forall r :: 0 <= r < |g| ==> |g[r]| <= m
    ensures |g| > 0 ==> exists r :: 0 <= r < |g| && |g[r]| == m
  {
    if |g| == 0 then 0
    else
      var m := MaxColumn(g[..|g| - 1]);
      assert forall r :: 0 <= r < |g| - 1 ==> g[..|g| - 1][r] == g[r];
      if |g[|g| - 1]| > m then |g[|g| - 1]| else m
  }

  /** The sheet `to_excel(index=False)` writes (app.py line 6): the column
      names in row 1, then one row per table row, column `j + 1` holding the
      table's column `j`. */
  function Frame(cols: seq<string>, body: seq<seq<Cell>>): (g: Grid)
    ensures forall j :: 0 <= j < |cols| ==> Get(g, 1, j + 1) == Text(cols[j])
    ensures forall i, j :: 0 <= i < |body| && 0 <= j < |body[i]| ==> Get(g, i + 2, j + 1) == body[i][j]
  {
    [seq(|cols|, j requires 0 <= j < |cols| => Text(cols[j]))] + body
  }
}

=== FILE: strings.dfy ===
/** The two Python string operations the header layout relies on:
    `str.split(sep)` with an explicit one-character separator, and
    `str.replace(pat, rep)` with a one-character pattern. */
module Strings {

  /** `s.count(c)`: how many times `c` occurs in `s`. */
  function Count(s: string, c: char): (n: nat)
    ensures n <= |s|
    ensures n == 0 <==> c !in s
    decreases |s|
  {
    if |s| == 0 then 0
    else
      assert s == [s[0]] + s[1..];
      (if s[0] == c then 1 else 0) + Count(s[1..], c)
  }

  /** `sep.join(parts)`: the parts with one separator between neighbours. */
  function Join(parts: seq<string>, sep: char): string
    requires |parts| >= 1
    decreases |parts|
  {
    if |parts| == 1 then parts[0] else parts[0] + [sep] + Join(parts[1..], sep)
  }

  /** `s.split(sep)`: cuts `s` at every occurrence of `sep`. An empty string
      gives one empty part, and neighbouring separators give empty parts. */
  function Split(s: string, sep: char): (parts: seq<string>)
    ensures |parts| == Count(s, sep) + 1
    ensures forall i :: 0 <= i < |parts| ==> sep !in parts[i]
    ensures Join(parts, sep) == s
    decreases |s|
  {
    if |s| == 0 then [""]
    else
      var rest := Split(s[1..], sep);
      assert s == [s[0]] + s[1..];
      if s[0] == sep then [""] + rest
      else [[s[0]] + rest[0]] + rest[1..]
  }

  /** Putting a character in front of the first part puts it in front of the join. */
  lemma {:induction false} JoinConsChar(c: char, parts: seq<string>, sep: char)
    requires |parts| >= 1
    ensures Join([[c] + parts[0]] + parts[1..], sep) == [c] + Join(parts, sep)
  {
    var q := [[c] + parts[0]] + parts[1..];
    assert q[1..] == parts[1..];
  }

  /** How `Split` treats a first character: a separator opens a new part,
      anything else joins the first part. */
  lemma {:induction false} SplitCons(c: char, s: string, sep: char)
    ensures Split([c] + s, sep) ==
      if c == sep then [""] + Split(s, sep) else [[c] + Split(s, sep)[0]] + Split(s, sep)[1..]
  {
    assert ([c] + s)[1..] == s;
  }

  /** Splitting a join gives the parts back, provided no part holds the separator. */
  lemma {:induction false} SplitJoin(parts: seq<string>, sep: char)
    requires |parts| >= 1
    requires forall i :: 0 <= i < |parts| ==> sep !in parts[i]
    ensures Split(Join(parts, sep), sep) == parts
    decreases |parts|, |parts[0]|, 1
  {
    if |parts[0]| == 0 {
      if |parts| > 1 {
        SplitJoinEmptyHead(parts, sep);
      }
    } else {
      SplitJoinCharHead(parts, sep);
    }
  }

  /** `SplitJoin` when the first part is empty: the join starts with a separator. */
  lemma {:induction false} SplitJoinEmptyHead(parts: seq<string>, sep: char)
    requires |parts| > 1 && |parts[0]| == 0
    requires forall i :: 0 <= i < |parts| ==> sep !in parts[i]
    ensures Split(Join(parts, sep), sep) == parts
    decreases |parts|, |parts[0]|, 0
  {
    var j := Join(parts[1..], sep);
    SplitJoin(parts[1..], sep);
    assert Join(parts, sep) == [sep] + j;
    SplitCons(sep, j, sep);
    assert parts == [""] + parts[1..];
  }

  /** `SplitJoin` when the first part starts with a character other than the separator. */
  lemma {:induction false} SplitJoinCharHead(parts: seq<string>, sep: char)
    requires |parts| >= 1 && |parts[0]| > 0
    requires forall i :: 0 <= i < |parts| ==> sep !in parts[i]
    ensures Split(Join(parts, sep), sep) == parts
    decreases |parts|, |parts[0]|, 0
  {
    var c := parts[0][0];
    var tail := [parts[0][1..]] + parts[1..];
    assert parts[0] == [c] + parts[0][1..];
    assert tail[1..] == parts[1..];
    assert forall i :: 1 <= i < |tail| ==> tail[i] == parts[i];
    SplitJoin(tail, sep);
    JoinConsChar(c, tail, sep);
    assert [[c] + tail[0]] + tail[1..] == parts;
    SplitCons(c, Join(tail, sep), sep);
  }

  /** `s.replace(pat, rep)` for a one-character pattern: each occurrence of
      `pat` becomes `rep`, every other character is kept. */
  function Replace(s: string, pat: char, rep: string): (r: string)
    ensures |r| == |s| + Count(s, pat) * (|rep| - 1)
    ensures pat !in s ==> r == s
    decreases |s|
  {
    if |s| == 0 then []
    else
      var tail := Replace(s[1..], pat, rep);
      var k := Count(s[1..], pat);
      assert (k + 1) * (|rep| - 1) == k * (|rep| - 1) + (|rep| - 1);
      (if s[0] == pat then rep else [s[0]]) + tail
  }

  /** Replacement works piece by piece: together with its value on one
      character this pins `Replace` down completely. */
  lemma {:induction false} ReplaceConcat(a: string, b: string, pat: char, rep: string)
    ensures Replace(a + b, pat, rep) == Replace(a, pat, rep) + Replace(b, pat, rep)
    decreases |a|
  {
    if |a| == 0 {
      assert a + b == b;
    } else {
      assert (a + b)[1..] == a[1..] + b;
      ReplaceConcat(a[1..], b, pat, rep);
    }
  }
}
